=== FILE: README.md ===
# Differential relaxation in Dafny

A model of the four C programs of DifferentialRelaxation. Each repeatedly replaces
every interior cell of a square `dim x dim` grid of numbers by the average of its four
orthogonal neighbours (Jacobi relaxation), copies the boundary cells forward, and
stops after the first round in which every interior cell moved by less than
`precision`. The programs differ only in how a round is computed:

- `diffrelax_seq.c` uses one fused sweep that averages and counts (`calc_avg_and_diff`).
- `diffrelax.c` uses two sweeps, first all averages and then all differences.
- `diffrelax_parl.c` creates one thread per interior cell and joins each before
  the next starts.
- `diffrelax_prl.c` uses `num_threads` threads started on statically balanced
  contiguous ranges of linear cell indices. Cell `k` stands for
  `(k / (dim-2) + 1, k % (dim-2) + 1)`, and a mutex guards the shared counter.

The model is functional:
- Grids are `seq<seq<real>>`.
- The C loops become tail recursions that visit cells in the same order.
- A round's threads become workers composed one after another.

The main results:
- **Partition.** With fewer threads than cells, loads are `num_cells / num_threads`,
  plus one for exactly the last `num_cells % num_threads` threads. They sum to the
  cell count and differ by at most one. With at least as many threads as cells,
  the loads stay 0 and each thread is given a single cell or none. The odd two-way choice of `extra_load` always equals the remainder.
  The ranges of either branch tile `[0, num_cells)`.
- **Index map.** The map is a bijection onto the interior, in row-major order, so
  every neighbour read is in bounds.
- **Round.** Every variant's round, with whatever the freshly allocated
  destination held, equals the reference round `Grids.Relax`. Each round also
  counts exactly the interior cells that moved by less than `precision`.
  Workers over disjoint ranges commute, so thread order stands for any
  interleaving.
- **Round loop.** For every variant, the loop is the same state machine. It
  stops after the first round in which all cells were precise and returns that
  round's grid. The boundary never changes. A `2 x 2` grid and a grid that is
  already a fixpoint stop after exactly one round.

Files: `grids.dfy`, `index_map.dfy`, `partition.dfy`, `workers.dfy`,
`row_sweeps.dfy`, `boundary.dfy`, `rounds.dfy` and `driver.dfy`. There is one
module per file.

Points of the code's behaviour that the model keeps as written:
- **Threads per round.** Each threaded program creates and joins fresh threads
  every round; there are no persistent workers and no barrier.
- **Counter reset.** `diffrelax_seq.c` and `diffrelax.c` start each round's count
  at 0. `diffrelax_prl.c` and `diffrelax_parl.c` reset the counter after a round
  that did not converge and never initialise it before the first round. The
  model starts it at 0 and resets it at the end, as those two programs do.
- **Idle threads.** With at least as many threads as cells, thread `i` gets the
  range `[i, i + 1)` and the surplus threads run `idle_thread`. The model keeps
  that distinction (`Partition.Task.Idle`).
- **Extra load.** `extra_load` is chosen between `num_cells - num_threads` and
  `num_cells % num_threads` (`Partition.ExtraLoad`); the two always agree when
  they are used.

## Model

| member | source | states |
|---|---|---|
| Grids.RelaxCells | diffrelax.c:85-124 | after a round every interior cell holds the average of its four neighbours in the old grid and every boundary cell holds its old value |
| Grids.RelaxKeepsBoundary | diffrelax_seq.c:134-138 | a round never changes a boundary cell |
| Grids.RelaxFixpoint | diffrelax_seq.c:152-157 | a grid whose interior cells already equal their neighbour averages comes out of a round unchanged |
| Grids.RelaxNoInterior | diffrelax_seq.c:152-153 | with `dim <= 2` the sweep loops are empty and a round returns the grid unchanged |
| Grids.AllPreciseCells | diffrelax_seq.c:152-158 | the row-by-row stopping test holds if and only if every interior cell moves by less than `precision` |
| IndexMap.CellOf | diffrelax_prl.c:229-234 | linear index `k < (dim-2)^2` names a cell in `1..dim-2` on both axes, so all four neighbour reads lie inside the grid |
| IndexMap.IndexMapBijective | diffrelax_prl.c:229-231 | the map from `[0, (dim-2)^2)` to interior cells is a bijection whose inverse is `(i-1)*(dim-2)+(j-1)`, and smaller indices come earlier in row-major order |
| Partition.ExtraLoadIsRemainder | diffrelax_prl.c:98-102 | both branches of the `extra_load` choice give `num_cells % num_threads` whenever `1 <= num_threads < num_cells` |
| Partition.BackwardLoads | diffrelax_prl.c:103-108 | the backward loop with the post-decremented counter gives exactly the last `extra` threads one cell more than the base |
| Partition.SumBackwardLoads | diffrelax_prl.c:103-108 | the loads written by the backward loop add up to `count * base + extra` |
| Partition.LoadsBalanced | diffrelax_prl.c:94-109 | with fewer threads than cells, thread `p` gets `num_cells / num_threads` plus one exactly when it is among the last `num_cells % num_threads`; loads sum to `num_cells` and differ by at most one |
| Partition.RangesFrom | diffrelax_prl.c:135-140 | the range loop gives thread `p` the range from the sum of the earlier loads to that sum plus its own load |
| Partition.UnitTasks | diffrelax_prl.c:150-161 | with at least as many threads as cells, thread `p` computes `[p, p + 1)` when `p < num_cells` and is idle otherwise |
| Partition.ChainedTiles | diffrelax_prl.c:133-169 | tasks whose ranges follow on from one another tile their span: every index in it is computed by exactly one task and none outside it |
| Partition.AssignTiles | diffrelax_prl.c:133-169 | in either branch the threads' ranges lie in `[0, num_cells)`, cover every cell and are pairwise disjoint |
| Partition.AssignRanges | diffrelax_prl.c:133-140 | with fewer threads than cells, thread `p` computes the prefix-sum range of its load |
| Partition.AssignUnits | diffrelax_prl.c:149-161 | with at least as many threads as cells, thread `p` computes only cell `p` if it exists and idles otherwise |
| Partition.AssignBalanced | diffrelax_prl.c:94-169 | in either branch the number of cells any two threads compute differs by at most one |
| Workers.CellUpdate | diffrelax_parl.c:169-178 | one cell's work adds one to the counter exactly when the old value lies within `precision` of the neighbour average |
| Workers.CellUpdateCells | diffrelax_parl.c:169-171 | one cell's work writes only that destination cell, with the neighbour average of the source |
| Workers.PreciseCount | diffrelax_seq.c:148-166 | the number of precise interior cells lies in `[0, (dim-2)^2]` |
| Workers.PreciseCountCells | diffrelax_seq.c:148-158 | the round's count is the number of interior cells `(i, j)` whose old value is within `precision` of their neighbour average |
| Workers.PreciseCountFull | diffrelax_seq.c:68-85 | the count equals `(dim-2)^2` if and only if every interior cell moved by less than `precision` |
| Workers.RunRange | diffrelax_prl.c:229-248 | a worker over `[lo, hi)` adds to the counter exactly the number of precise cells in its range |
| Workers.RunRangeCells | diffrelax_prl.c:229-234 | a worker writes exactly the cells of its range, each with the neighbour average of the source, and leaves every other destination cell as it was |
| Workers.RunRangeSplit | diffrelax_prl.c:135-140 | running `[lo, mid)` and then `[mid, hi)` gives the same grid and count as running `[lo, hi)` |
| Workers.WorkersCommute | diffrelax_prl.c:242-245 | two workers over disjoint ranges give the same grid and count in either order |
| Workers.RunTasksChained | diffrelax_prl.c:171-177 | the threads of a round, whose ranges follow on from one another, together do what one worker over their whole span does |
| Workers.PartitionedSweep | diffrelax_prl.c:133-177 | all threads of a round, started on their assigned tasks, give the grid and count of one worker over the whole interior |
| RowSweeps.FusedSweep | diffrelax_seq.c:146-167 | the nested row/column loop visits the interior cells exactly as the worker over `[0, (dim-2)^2)` does, with the same grid and count |
| RowSweeps.AvgRowsIsRange | diffrelax.c:85-92 | the averaging pass writes the same grid as the worker over the whole interior |
| RowSweeps.DiffRowsIsCount | diffrelax.c:96-105 | once every interior cell holds its average, the difference pass counts exactly the precise cells |
| RowSweeps.WholeBlockAverages | diffrelax_seq.c:152-157 | after a full sweep every interior destination cell holds its neighbour average |
| RowSweeps.TwoPassSweep | diffrelax.c:83-106 | averages first and differences second, with the counter reset between, give the same grid and count as the fused sweep |
| Boundary.FillBoundary | diffrelax_seq.c:129-144 | the boundary copy sets exactly the boundary cells to the old grid's values and keeps every interior average |
| Rounds.RoundSequential | diffrelax_seq.c:68-76 | a round of the fused program is the reference round, with the count of precise cells |
| Rounds.RoundTwoPass | diffrelax.c:75-124 | a round of the two-pass program is the reference round, with the count of precise cells |
| Rounds.RoundPerCell | diffrelax_parl.c:104-138 | a round of the thread-per-cell program is the reference round; the counter grows from its entry value by the count of precise cells |
| Rounds.RoundPartitioned | diffrelax_prl.c:118-185 | a round of the thread-pool program, for any thread count, is the reference round; the counter grows from its entry value by the count of precise cells |
| Rounds.ClampThreads | diffrelax_parl.c:60-66 | the clamped thread count is the smaller of the requested count and `(dim-2)^2` |
| Driver.RoundStopsIff | diffrelax_prl.c:193-194 | with the counter at 0 on entry, every program stops after a round exactly when every interior cell moved by less than `precision` |
| Driver.Iterate | diffrelax_prl.c:185-211 | one pass of the loop body of any program stops with the reference round's grid when all cells were precise, and otherwise promotes that grid with the counter reset to 0 |
| Driver.Run | diffrelax_seq.c:57-98 | whatever the program and thread count, its loop returns exactly what the reference loop returns |
| Driver.ReferenceRunSpec | diffrelax_seq.c:57-98 | the loop stops after round `r` exactly when round `r` is the first in which all cells were precise, and returns the grid after `r` rounds; if still running, no round so far converged |
| Driver.ReferenceRunKeepsBoundary | diffrelax_seq.c:75-96 | the grid the loop returns or holds has the initial grid's boundary |
| Driver.NoInteriorStopsAfterOneRound | diffrelax_seq.c:68-85 | a `2 x 2` grid stops after exactly one round and is returned unchanged |
| Driver.FixpointStopsAfterOneRound | diffrelax_seq.c:152-158 | a grid that is already a fixpoint stops after one round when `precision > 0`, and is returned unchanged |

## Left out

- Threads, `pthread_create`/`pthread_join` and the mutex: the threads of a round
  are composed one after another. `Workers.WorkersCommute` shows that the order of
  workers over disjoint ranges does not matter. The mutex only serialises the
  counter increment, which the model performs atomically.
- Thread creation and join failures, and the error exits that follow them: the
  model has no failing primitives.
- File loading (`load_values_to_array`, `fscanf`), argument parsing (`atoi`,
  `atof`) and all `printf` logging: these are I/O. The grid, dimension, thread
  count and precision are parameters.
- `malloc_array` and every `free`: allocation only. The fresh destination grid is
  an arbitrary `scratch` grid that every round is proved not to depend on. The
  loop passes an all-zero grid. The null check on `data_array` instead of
  `data_array[i]` in `malloc_array` is therefore not modelled.
- IEEE double arithmetic, the `4.0f` divisor and `fabs` rounding: values are
  mathematical reals.
- 32-bit `int` overflow of `(dim-2)*(dim-2)` and of the counter: integers are
  unbounded.
- `dim < 2`: every operation requires `dim >= 2`. For `dim = 1` the target
  `(dim-2)^2` is 1 while there are no interior cells. `diffrelax_seq.c`,
  `diffrelax.c` and, with the counter at 0, `diffrelax_parl.c` then loop
  forever. `diffrelax_prl.c` instead starts thread 0 on `[0, 1)` with
  `avg_dim = -1`, which maps index 0 to cell `(1, 1)` and reads and writes
  outside the 1 x 1 grid.
- `num_threads < 1`: `Driver.ValidVariant` requires at least one thread.
  With zero threads and `dim >= 3`, `diffrelax_prl.c` computes `num_cells % 0`
  and `num_cells / 0` when it splits the loads, a division by zero. With zero
  threads and `dim = 2`, there are no cells, so no thread is started and the
  run stops after one round like any other 2 x 2 run. A negative count turns
  `num_threads * sizeof(pthread_args)` into a huge `size_t`, so the allocation
  of the thread arguments fails and the program exits with its error message.
- The never-initialised counter of `diffrelax_prl.c` and `diffrelax_parl.c`: it
  is taken to be 0 before the first round, as after each reset. In
  `diffrelax_parl.c` the counter is declared inside the loop body, so the reset
  at the end of a round writes a variable whose lifetime ends at once, and in C
  terms every round starts from an indeterminate value. The model takes it to
  be 0 on every round of that program.
- Driver.Run: executes at most `fuel` rounds and returns the running state when
  they are used up. Whether the loop ever stops is a matter of numerical
  convergence, which is not modelled.
- The clamped thread count in `diffrelax_parl.c` is computed and printed but never
  used by its per-cell loop. `Rounds.ClampThreads` models the clamp alone.
- `thread_test.c` (a thread demo) and `gen_rand_array.py` (random input
  generation) are not part of this model.

=== FILE: boundary.dfy ===
/** `fill_boundary_cells`, identical in all four variants: after the sweep, each
    boundary cell of the new grid is copied from the old grid. */
module Boundary {
  import opened Grids

  /** Inner loop: columns `j, ..., dim - 1` of row `i`. */
  function FillRow(src: Grid, avg: Grid, dim: int, i: int, j: int): (r: Grid)
    requires IsGrid(src, dim) && IsGrid(avg, dim) && 0 <= i < dim && 0 <= j <= dim
    ensures IsGrid(r, dim)
    ensures forall a, b :: 0 <= a < dim && 0 <= b < dim ==>
              r[a][b] == if a == i && j <= b && IsBoundary(dim, a, b) then src[a][b] else avg[a][b]
    decreases dim - j
  {
    if j == dim then avg
    else FillRow(src, if IsBoundary(dim, i, j) then SetCell(avg, dim, i, j, src[i][j]) else avg, dim, i, j + 1)
  }

  /** Outer loop: rows `i, ..., dim - 1`. Boundary cells of those rows take the
      old grid's value; every other cell keeps what the sweep wrote. */
  function FillRows(src: Grid, avg: Grid, dim: int, i: int): (r: Grid)
    requires IsGrid(src, dim) && IsGrid(avg, dim) && 0 <= i <= dim
    ensures IsGrid(r, dim)
    ensures forall a, b :: 0 <= a < dim && 0 <= b < dim ==>
              r[a][b] == if i <= a && IsBoundary(dim, a, b) then src[a][b] else avg[a][b]
    decreases dim - i
  {
    if i == dim then avg
    else FillRows(src, FillRow(src, avg, dim, i, 0), dim, i + 1)
  }

  /** The whole copy: exactly the boundary cells come from `src`; interior cells
      keep the averages. */
  function FillBoundary(src: Grid, avg: Grid, dim: int): (r: Grid)
    requires IsGrid(src, dim) && IsGrid(avg, dim)
    ensures IsGrid(r, dim)
    ensures SameBoundary(r, src, dim)
    ensures forall i, j :: IsInterior(dim, i, j) ==> r[i][j] == avg[i][j]
  {
    FillRows(src, avg, dim, 0)
  }
}

=== FILE: driver.dfy ===
/** The round loop shared by all four programs, as a state machine: a round is
    computed from the current grid; if the count of cells that moved by less than
    the precision equals `(dim - 2)^2` the program stops with the new grid,
    otherwise the new grid becomes the current grid and the counter is reset to 0.
    Whether the loop ever stops is numerical convergence and is not modelled;
    `Run` executes at most `fuel` rounds. */
module Driver {
  import opened Grids
  import opened Workers
  import opened Rounds

  /** The four programs, which differ only in how a round is computed. */
  datatype Variant =
    | Sequential                 // diffrelax_seq.c
    | TwoPass                    // diffrelax.c
    | PerCellThreads             // diffrelax_parl.c
    | ThreadPool(numThreads: int) // diffrelax_prl.c

  predicate ValidVariant(v: Variant) {
    v.ThreadPool? ==> v.numThreads >= 1
  }

  /** The programs that reset the counter at the start of a round rather than at the end. */
  predicate ResetsOnEntry(v: Variant) {
    v.Sequential? || v.TwoPass?
  }

  /** One round of the given program. */
  function Round(v: Variant, src: Grid, scratch: Grid, counter: int, dim: int, precision: real): (r: Sweep)
    requires IsGrid(src, dim) && IsGrid(scratch, dim) && dim >= 2 && ValidVariant(v)
    ensures r.avg == Relax(src, dim)
    ensures r.numPrecise == (if ResetsOnEntry(v) then 0 else counter) + PreciseCount(src, dim, precision)
  {
    match v
    case Sequential => RoundSequential(src, scratch, dim, precision)
    case TwoPass => RoundTwoPass(src, scratch, dim, precision)
    case PerCellThreads => RoundPerCell(src, scratch, counter, dim, precision)
    case ThreadPool(numThreads) => RoundPartitioned(src, scratch, counter, dim, numThreads, precision)
  }

  /** Between rounds: the current grid, the shared counter and the rounds done so far. */
  datatype Relaxation = Relaxation(data: Grid, numPrecise: int, runs: nat)

  datatype Outcome = Running(state: Relaxation) | Converged(grid: Grid, runs: nat)

  /** The state before the first round; the counter starts at 0. */
  function Initial(g: Grid): Relaxation {
    Relaxation(g, 0, 0)
  }

  /** With the counter at 0, a round's count reaches `(dim - 2)^2` exactly when
      every interior cell moved by less than `precision`. */
  lemma RoundStopsIff(v: Variant, src: Grid, scratch: Grid, dim: int, precision: real)
    requires IsGrid(src, dim) && IsGrid(scratch, dim) && dim >= 2 && ValidVariant(v)
    ensures Round(v, src, scratch, 0, dim, precision).numPrecise == NumCells(dim)
            <==> AllPrecise(src, dim, precision)
  {
    PreciseCountFull(src, dim, precision);
    AllPreciseCells(src, dim, precision);
  }

  /** The loop as the reference round and the "every cell precise" test describe
      it, at most `fuel` iterations: the partner every program's loop is proved
      equal to. */
  ghost function ReferenceRun(s: Relaxation, dim: int, precision: real, fuel: nat): Outcome
    requires IsGrid(s.data, dim)
    decreases fuel
  {
    if fuel == 0 then Running(s)
    else if AllPrecise(s.data, dim, precision) then Converged(Relax(s.data, dim), s.runs + 1)
    else ReferenceRun(Relaxation(Relax(s.data, dim), 0, s.runs + 1), dim, precision, fuel - 1)
  }

  /** One iteration of the loop body: the round, the stopping test on the
      counter, and otherwise promotion of the new grid with the counter reset to 0.
      With the counter at 0 on entry, it computes the reference round and stops
      exactly when every interior cell moved by less than `precision`. */
  method Iterate(v: Variant, s: Relaxation, dim: int, precision: real) returns (o: Outcome)
    requires IsGrid(s.data, dim) && dim >= 2 && ValidVariant(v) && s.numPrecise == 0
    ensures o == if AllPrecise(s.data, dim, precision) then Converged(Relax(s.data, dim), s.runs + 1)
                 else Running(Relaxation(Relax(s.data, dim), 0, s.runs + 1))
  {
    var r := Round(v, s.data, Blank(dim), s.numPrecise, dim, precision);
    RoundStopsIff(v, s.data, Blank(dim), dim, precision);
    if r.numPrecise == NumCells(dim) {
      o := Converged(r.avg, s.runs + 1);
    } else {
      o := Running(Relaxation(r.avg, 0, s.runs + 1));
    }
  }

  /** The main loop of each program, cut off after `fuel` rounds. Whatever the
      program, it runs exactly the reference loop. */
  method Run(v: Variant, g: Grid, dim: int, precision: real, fuel: nat) returns (o: Outcome)
    requires IsGrid(g, dim) && dim >= 2 && ValidVariant(v)
    ensures o == ReferenceRun(Initial(g), dim, precision, fuel)
  {
    var s := Initial(g);
    var k := 0;
    while k < fuel
      invariant 0 <= k <= fuel && IsGrid(s.data, dim) && s.numPrecise == 0
      invariant ReferenceRun(Initial(g), dim, precision, fuel) == ReferenceRun(s, dim, precision, fuel - k)
    {
      var next := Iterate(v, s, dim, precision);
      if next.Converged? {
        return next;
      }
      s := next.state;
      k := k + 1;
    }
    return Running(s);
  }

  /** The grid after `n` reference rounds. */
  ghost function RelaxN(g: Grid, dim: int, n: nat): (r: Grid)
    requires IsGrid(g, dim)
    ensures IsGrid(r, dim)
  {
    if n == 0 then g else Relax(RelaxN(g, dim, n - 1), dim)
  }

  /** The loop stops after round `r` exactly when round `r` is the first in which
      every interior cell moved by less than `precision`, and it then returns the
      grid after `r` rounds; if it is still running after `fuel` rounds, no round
      so far converged. */
  lemma {:induction false} ReferenceRunSpec(g: Grid, dim: int, precision: real, n: nat, fuel: nat)
    requires IsGrid(g, dim)
    requires forall m :: 0 <= m < n ==> !AllPrecise(RelaxN(g, dim, m), dim, precision)
    ensures match ReferenceRun(Relaxation(RelaxN(g, dim, n), 0, n), dim, precision, fuel)
            case Converged(h, r) =>
              n < r <= n + fuel && h == RelaxN(g, dim, r) && AllPrecise(RelaxN(g, dim, r - 1), dim, precision)
              && forall m :: 0 <= m < r - 1 ==> !AllPrecise(RelaxN(g, dim, m), dim, precision)
            case Running(s) =>
              s == Relaxation(RelaxN(g, dim, n + fuel), 0, n + fuel)
              && forall m :: 0 <= m < n + fuel ==> !AllPrecise(RelaxN(g, dim, m), dim, precision)
    decreases fuel
  {
    if fuel > 0 && !AllPrecise(RelaxN(g, dim, n), dim, precision) {
      ReferenceRunSpec(g, dim, precision, n + 1, fuel - 1);
    }
  }

  /** Every round's grid has the boundary of the initial grid. */
  lemma {:induction false} RelaxNKeepsBoundary(g: Grid, dim: int, n: nat)
    requires IsGrid(g, dim)
    ensures SameBoundary(RelaxN(g, dim, n), g, dim)
  {
    if n > 0 {
      RelaxNKeepsBoundary(g, dim, n - 1);
      RelaxKeepsBoundary(RelaxN(g, dim, n - 1), dim);
    }
  }

  /** Whatever the loop returns has the initial grid's boundary. */
  lemma ReferenceRunKeepsBoundary(g: Grid, dim: int, precision: real, fuel: nat)
    requires IsGrid(g, dim)
    ensures match ReferenceRun(Initial(g), dim, precision, fuel)
            case Converged(h, _) => IsGrid(h, dim) && SameBoundary(h, g, dim)
            case Running(s) => IsGrid(s.data, dim) && SameBoundary(s.data, g, dim)
  {
    ReferenceRunSpec(g, dim, precision, 0, fuel);
    match ReferenceRun(Initial(g), dim, precision, fuel)
    case Converged(h, r) => RelaxNKeepsBoundary(g, dim, r);
    case Running(s) => RelaxNKeepsBoundary(g, dim, fuel);
  }

  /** A 2 x 2 grid has no interior: the count 0 equals `(dim - 2)^2 = 0`, so the
      loop stops after exactly one round, which copied the grid unchanged. */
  lemma NoInteriorStopsAfterOneRound(g: Grid, precision: real, fuel: nat)
    requires IsGrid(g, 2) && fuel >= 1
    ensures ReferenceRun(Initial(g), 2, precision, fuel) == Converged(g, 1)
  {
    RelaxNoInterior(g, 2);
  }

  /** A grid whose interior already equals its neighbour averages, with a positive
      precision, stops after exactly one round and comes back unchanged. */
  lemma FixpointStopsAfterOneRound(g: Grid, dim: int, precision: real, fuel: nat)
    requires IsGrid(g, dim) && IsFixpoint(g, dim) && precision > 0.0 && fuel >= 1
    ensures ReferenceRun(Initial(g), dim, precision, fuel) == Converged(g, 1)
  {
    RelaxFixpoint(g, dim);
    AllPreciseCells(g, dim, precision);
  }
}

=== FILE: grids.dfy ===
/** Square grids of reals, the split into boundary and interior cells, and the
    Jacobi four-neighbour relaxation step that every program variant computes.

    `Relax` is the reference round: each interior cell becomes the average of its
    four neighbours in the old grid, each boundary cell keeps its old value. The
    concrete sweeps in modules Workers and RowSweeps and the per-variant rounds
    in module Rounds are all proved equal to it. */
module Grids {

  /** A grid stored row by row, `g[i][j]` being row `i`, column `j`. */
  type Grid = seq<seq<real>>

  /** `g` has `dim` rows of `dim` cells each. */
  predicate IsGrid(g: Grid, dim: int) {
    |g| == dim && forall i :: 0 <= i < dim ==> |g[i]| == dim
  }

  /** Cells on row or column 0 or `dim - 1`: never relaxed, copied forward each round. */
  predicate IsBoundary(dim: int, i: int, j: int) {
    0 <= i < dim && 0 <= j < dim && (i == 0 || i == dim - 1 || j == 0 || j == dim - 1)
  }

  /** Cells `1 <= i, j <= dim - 2`: the ones relaxed each round. */
  predicate IsInterior(dim: int, i: int, j: int) {
    1 <= i <= dim - 2 && 1 <= j <= dim - 2
  }

  /** Number of interior cells, `(dim - 2)^2`; the convergence target of each round. */
  function NumCells(dim: int): int {
    (dim - 2) * (dim - 2)
  }

  function Abs(x: real): real {
    if x < 0.0 then -x else x
  }

  /** Average of the four orthogonal neighbours of an interior cell. */
  function NeighbourAvg(g: Grid, dim: int, i: int, j: int): real
    requires IsGrid(g, dim) && IsInterior(dim, i, j)
  {
    (g[i - 1][j] + g[i][j - 1] + g[i][j + 1] + g[i + 1][j]) / 4.0
  }

  /** The cell moved by less than `precision` when replaced by its neighbour average. */
  predicate Precise(g: Grid, dim: int, i: int, j: int, precision: real)
    requires IsGrid(g, dim) && IsInterior(dim, i, j)
  {
    Abs(g[i][j] - NeighbourAvg(g, dim, i, j)) < precision
  }

  /** Columns `1..n` of interior row `i` are all precise. */
  predicate PreciseRow(g: Grid, dim: int, precision: real, i: int, n: nat)
    requires IsGrid(g, dim) && 1 <= i <= dim - 2 && n <= dim - 2
  {
    n == 0 || (PreciseRow(g, dim, precision, i, n - 1) && Precise(g, dim, i, n, precision))
  }

  /** Interior rows `1..n` are all precise. */
  predicate PreciseRows(g: Grid, dim: int, precision: real, n: nat)
    requires IsGrid(g, dim) && n <= dim - 2
  {
    n == 0 || (PreciseRows(g, dim, precision, n - 1) && PreciseRow(g, dim, precision, n, dim - 2))
  }

  /** Every interior cell moves by less than `precision` in the next round: the
      condition under which a round's count reaches `(dim - 2)^2`. Checked row by
      row; `AllPreciseCells` gives it cell by cell. */
  predicate AllPrecise(g: Grid, dim: int, precision: real)
    requires IsGrid(g, dim)
  {
    dim < 3 || PreciseRows(g, dim, precision, dim - 2)
  }

  lemma {:induction false} PreciseRowCells(g: Grid, dim: int, precision: real, i: int, n: nat)
    requires IsGrid(g, dim) && 1 <= i <= dim - 2 && n <= dim - 2
    ensures PreciseRow(g, dim, precision, i, n) <==> forall j :: 1 <= j <= n ==> Precise(g, dim, i, j, precision)
  {
    if n > 0 {
      PreciseRowCells(g, dim, precision, i, n - 1);
    }
  }

  lemma {:induction false} PreciseRowsCells(g: Grid, dim: int, precision: real, n: nat)
    requires IsGrid(g, dim) && n <= dim - 2
    ensures PreciseRows(g, dim, precision, n)
            <==> forall i, j :: 1 <= i <= n && 1 <= j <= dim - 2 ==> Precise(g, dim, i, j, precision)
  {
    if n > 0 {
      PreciseRowsCells(g, dim, precision, n - 1);
      PreciseRowCells(g, dim, precision, n, dim - 2);
      if PreciseRows(g, dim, precision, n) {
        forall i, j | 1 <= i <= n && 1 <= j <= dim - 2
          ensures Precise(g, dim, i, j, precision)
        {
          if i < n {
            assert PreciseRows(g, dim, precision, n - 1);
          }
        }
      }
    }
  }

  /** `AllPrecise` holds exactly when every interior cell is precise. */
  lemma AllPreciseCells(g: Grid, dim: int, precision: real)
    requires IsGrid(g, dim)
    ensures AllPrecise(g, dim, precision) <==> forall i, j :: IsInterior(dim, i, j) ==> Precise(g, dim, i, j, precision)
  {
    if dim >= 3 {
      PreciseRowsCells(g, dim, precision, dim - 2);
    }
  }

  /** Every interior cell already equals its neighbour average. */
  ghost predicate IsFixpoint(g: Grid, dim: int)
    requires IsGrid(g, dim)
  {
    forall i, j :: IsInterior(dim, i, j) ==> g[i][j] == NeighbourAvg(g, dim, i, j)
  }

  /** `a` and `b` agree on every boundary cell. */
  ghost predicate SameBoundary(a: Grid, b: Grid, dim: int)
    requires IsGrid(a, dim) && IsGrid(b, dim)
  {
    forall i, j :: IsBoundary(dim, i, j) ==> a[i][j] == b[i][j]
  }

  /** The grid with cell `(i, j)` overwritten by `v`. */
  function SetCell(g: Grid, dim: int, i: int, j: int, v: real): (r: Grid)
    requires IsGrid(g, dim) && 0 <= i < dim && 0 <= j < dim
    ensures IsGrid(r, dim)
    ensures forall a, b :: 0 <= a < dim && 0 <= b < dim ==>
              r[a][b] == if a == i && b == j then v else g[a][b]
  {
    g[i := g[i][j := v]]
  }

  /** An all-zero grid, standing for a freshly allocated buffer. */
  function Blank(dim: nat): (r: Grid)
    ensures IsGrid(r, dim)
  {
    seq(dim, _ => seq(dim, _ => 0.0))
  }

  /** The value cell `(i, j)` takes in a round: its neighbour average if it is
      interior, its old value if it is on the boundary. */
  function RelaxedCell(g: Grid, dim: int, i: int, j: int): real
    requires IsGrid(g, dim) && 0 <= i < dim && 0 <= j < dim
  {
    if IsInterior(dim, i, j) then NeighbourAvg(g, dim, i, j) else g[i][j]
  }

  /** The first `n` cells of row `i` after a round. */
  function RelaxRow(g: Grid, dim: int, i: int, n: nat): (row: seq<real>)
    requires IsGrid(g, dim) && 0 <= i < dim && n <= dim
    ensures |row| == n
  {
    if n == 0 then [] else RelaxRow(g, dim, i, n - 1) + [RelaxedCell(g, dim, i, n - 1)]
  }

  /** The first `n` rows after a round. */
  function RelaxRows(g: Grid, dim: int, n: nat): (rows: Grid)
    requires IsGrid(g, dim) && n <= dim
    ensures |rows| == n && forall i :: 0 <= i < n ==> |rows[i]| == dim
  {
    if n == 0 then [] else RelaxRows(g, dim, n - 1) + [RelaxRow(g, dim, n - 1, dim)]
  }

  /** The reference round: interior cells averaged, boundary cells kept. Built row
      by row so that grids relaxed several times over are not unfolded cell by
      cell unless `RelaxCells` is asked for. */
  function Relax(g: Grid, dim: int): (r: Grid)
    requires IsGrid(g, dim)
    ensures IsGrid(r, dim)
  {
    RelaxRows(g, dim, |g|)
  }

  lemma {:induction false} RelaxRowCells(g: Grid, dim: int, i: int, n: nat)
    requires IsGrid(g, dim) && 0 <= i < dim && n <= dim
    ensures forall j :: 0 <= j < n ==> RelaxRow(g, dim, i, n)[j] == RelaxedCell(g, dim, i, j)
  {
    if n > 0 {
      RelaxRowCells(g, dim, i, n - 1);
    }
  }

  lemma {:induction false} RelaxRowsCells(g: Grid, dim: int, n: nat)
    requires IsGrid(g, dim) && n <= dim
    ensures forall i, j :: 0 <= i < n && 0 <= j < dim ==> RelaxRows(g, dim, n)[i][j] == RelaxedCell(g, dim, i, j)
  {
    if n > 0 {
      RelaxRowsCells(g, dim, n - 1);
      RelaxRowCells(g, dim, n - 1, dim);
    }
  }

  /** The cells of the reference round: every interior cell is the average of its
      four neighbours in the old grid, every boundary cell is the old value. */
  lemma RelaxCells(g: Grid, dim: int)
    requires IsGrid(g, dim)
    ensures forall i, j :: 0 <= i < dim && 0 <= j < dim ==>
              Relax(g, dim)[i][j] == if IsInterior(dim, i, j) then NeighbourAvg(g, dim, i, j) else g[i][j]
  {
    RelaxRowsCells(g, dim, dim);
  }

  /** Two grids of the same shape that agree cell by cell are equal. */
  lemma GridExt(a: Grid, b: Grid, dim: int)
    requires IsGrid(a, dim) && IsGrid(b, dim)
    requires forall i, j :: 0 <= i < dim && 0 <= j < dim ==> a[i][j] == b[i][j]
    ensures a == b
  {
    forall i | 0 <= i < dim
      ensures a[i] == b[i]
    {
      assert forall j :: 0 <= j < dim ==> a[i][j] == b[i][j];
    }
  }

  /** A round never changes a boundary cell. */
  lemma RelaxKeepsBoundary(g: Grid, dim: int)
    requires IsGrid(g, dim)
    ensures SameBoundary(Relax(g, dim), g, dim)
  {
    RelaxCells(g, dim);
  }

  /** A grid that is already a fixpoint is left unchanged by a round. */
  lemma RelaxFixpoint(g: Grid, dim: int)
    requires IsGrid(g, dim) && IsFixpoint(g, dim)
    ensures Relax(g, dim) == g
  {
    RelaxCells(g, dim);
    GridExt(Relax(g, dim), g, dim);
  }

  /** With `dim <= 2` there is no interior, so a round copies the grid unchanged. */
  lemma RelaxNoInterior(g: Grid, dim: int)
    requires IsGrid(g, dim) && dim <= 2
    ensures Relax(g, dim) == g
  {
    RelaxCells(g, dim);
    GridExt(Relax(g, dim), g, dim);
  }
}

=== FILE: index_map.dfy ===
/** The row-major numbering of the `side x side` interior block (`side = dim - 2`):
    linear index `k` stands for cell `(k / side + 1, k % side + 1)`. Workers are
    handed ranges of such indices; this module shows the numbering is a bijection
    onto the interior cells that preserves row-major order. */
module IndexMap {

  /** The cell that linear index `k` stands for. Both coordinates lie in
      `1..side`, so all four neighbours lie in `0..side + 1 = 0..dim - 1`. */
  function CellOf(k: int, side: int): (c: (int, int))
    requires 0 < side && 0 <= k < side * side
    ensures 1 <= c.0 <= side && 1 <= c.1 <= side
    ensures 0 <= c.0 - 1 && c.0 + 1 <= side + 1 && 0 <= c.1 - 1 && c.1 + 1 <= side + 1
  {
    QuotientBelow(k, side);
    (k / side + 1, k % side + 1)
  }

  /** The linear index of interior cell `(i, j)`: the inverse of `CellOf`. */
  function LinearIndex(i: int, j: int, side: int): int {
    (i - 1) * side + (j - 1)
  }

  /** Euclidean division is determined by quotient and remainder. */
  lemma DivModUnique(a: int, m: int, q: int, r: int)
    requires 0 < m && 0 <= r < m && a == q * m + r
    ensures a / m == q && a % m == r
  {
    var q', r' := a / m, a % m;
    assert a == q' * m + r';
    if q' < q {
      assert (q - q') * m >= m by { MulMono(q - q', 1, m); }
      assert false;
    } else if q' > q {
      assert (q' - q) * m >= m by { MulMono(q' - q, 1, m); }
      assert false;
    }
  }

  lemma MulMono(x: int, y: int, m: int)
    requires y <= x && 0 <= m
    ensures y * m <= x * m
  {
  }

  lemma QuotientBelow(k: int, side: int)
    requires 0 < side && 0 <= k < side * side
    ensures 0 <= k / side < side
  {
    if k / side >= side {
      MulMono(k / side, side, side);
      assert false;
    }
  }

  /** Every linear index maps to a cell whose linear index is that index. */
  lemma IndexOfCell(k: int, side: int)
    requires 0 < side && 0 <= k < side * side
    ensures LinearIndex(CellOf(k, side).0, CellOf(k, side).1, side) == k
  {
  }

  /** Every interior cell is reached from exactly its own linear index. */
  lemma CellOfIndex(i: int, j: int, side: int)
    requires 0 < side && 1 <= i <= side && 1 <= j <= side
    ensures 0 <= LinearIndex(i, j, side) < side * side
    ensures CellOf(LinearIndex(i, j, side), side) == (i, j)
  {
    MulMono(side - 1, i - 1, side);
    DivModUnique(LinearIndex(i, j, side), side, i - 1, j - 1);
  }

  /** Smaller linear indices come first in row-major order. */
  lemma RowMajorOrder(k: int, k': int, side: int)
    requires 0 < side && 0 <= k < k' < side * side
    ensures CellOf(k, side).0 < CellOf(k', side).0
            || (CellOf(k, side).0 == CellOf(k', side).0 && CellOf(k, side).1 < CellOf(k', side).1)
  {
    var q, r, q', r' := k / side, k % side, k' / side, k' % side;
    assert k == q * side + r && k' == q' * side + r';
    if q > q' {
      MulMono(q, q' + 1, side);
      assert false;
    } else if q == q' {
      assert r < r';
    }
  }

  /** No later index of a range names the same cell as its first index. */
  lemma LaterCellsDiffer(lo: int, hi: int, side: int)
    requires 0 < side && 0 <= lo < hi <= side * side
    ensures forall k :: lo < k < hi ==> CellOf(k, side) != CellOf(lo, side)
  {
    forall k | lo < k < hi
      ensures CellOf(k, side) != CellOf(lo, side)
    {
      RowMajorOrder(lo, k, side);
    }
  }

  /** `CellOf` is a bijection from `[0, side^2)` onto the interior block, and
      linear order is row-major order. */
  lemma IndexMapBijective(side: int)
    requires 0 < side
    ensures forall k :: 0 <= k < side * side ==>
              LinearIndex(CellOf(k, side).0, CellOf(k, side).1, side) == k
    ensures forall i, j :: 1 <= i <= side && 1 <= j <= side ==>
              0 <= LinearIndex(i, j, side) < side * side && CellOf(LinearIndex(i, j, side), side) == (i, j)
    ensures forall k, k' :: 0 <= k < k' < side * side ==>
              CellOf(k, side).0 < CellOf(k', side).0
              || (CellOf(k, side).0 == CellOf(k', side).0 && CellOf(k, side).1 < CellOf(k', side).1)
  {
    forall i, j | 1 <= i <= side && 1 <= j <= side
      ensures 0 <= LinearIndex(i, j, side) < side * side && CellOf(LinearIndex(i, j, side), side) == (i, j)
    {
      CellOfIndex(i, j, side);
    }
    forall k, k' | 0 <= k < k' < side * side
      ensures CellOf(k, side).0 < CellOf(k', side).0
              || (CellOf(k, side).0 == CellOf(k', side).0 && CellOf(k, side).1 < CellOf(k', side).1)
    {
      RowMajorOrder(k, k', side);
    }
  }
}

=== FILE: partition.dfy ===
/** The static work partition of the thread-pool variant: how the `num_cells`
    interior cells are split into per-thread loads and then into contiguous
    ranges of linear cell indices, and what each thread is started with. */
module Partition {
  import opened IndexMap

  function Sum(s: seq<int>): int {
    if |s| == 0 then 0 else s[0] + Sum(s[1..])
  }

  lemma SumAppend(s: seq<int>, x: int)
    ensures Sum(s + [x]) == Sum(s) + x
  {
    if |s| > 0 {
      assert (s + [x])[1..] == s[1..] + [x];
      SumAppend(s[1..], x);
    }
  }

  /** The number of cells handed out one extra each. `diffrelax_prl.c` picks
      between two expressions by comparing `num_cells / 2` with `num_cells - num_threads`. */
  function ExtraLoad(numCells: int, numThreads: int): int
    requires 1 <= numThreads < numCells
  {
    if numCells / 2 > numCells - numThreads then numCells - numThreads
    else numCells % numThreads
  }

  /** Whichever branch is taken, the extra load is the remainder `num_cells % num_threads`. */
  lemma ExtraLoadIsRemainder(numCells: int, numThreads: int)
    requires 1 <= numThreads < numCells
    ensures ExtraLoad(numCells, numThreads) == numCells % numThreads
  {
    if numCells / 2 > numCells - numThreads {
      // Then 2 * num_threads > num_cells, so the quotient is 1.
      assert numCells < 2 * numThreads;
      DivModOne(numCells, numThreads);
    }
  }

  /** Between `m` and `2 * m` the quotient is 1 and the remainder is `a - m`. */
  lemma DivModOne(a: int, m: int)
    requires 0 < m <= a < 2 * m
    ensures a / m == 1 && a % m == a - m
  {
    DivModUnique(a, m, 1, a - m);
  }

  /** The loads written by the backward loop over threads `count - 1, ..., 0`:
      each gets `base`, plus one while the post-decremented counter, which starts
      at `extra`, is still positive. So exactly the last `extra` threads get one more. */
  function BackwardLoads(base: int, count: nat, extra: int): (loads: seq<int>)
    ensures |loads| == count
    ensures forall p :: 0 <= p < count ==>
              loads[p] == base + (if p >= count - extra then 1 else 0)
    decreases count
  {
    if count == 0 then []
    else BackwardLoads(base, count - 1, extra - 1) + [base + (if extra > 0 then 1 else 0)]
  }

  lemma {:induction false} SumBackwardLoads(base: int, count: nat, extra: int)
    requires 0 <= extra <= count
    ensures Sum(BackwardLoads(base, count, extra)) == count * base + extra
    decreases count
  {
    if count > 0 {
      var rest := BackwardLoads(base, count - 1, extra - 1);
      if extra > 0 {
        SumBackwardLoads(base, count - 1, extra - 1);
      } else {
        SumBackwardLoads(base, count - 1, 0);
        assert rest == BackwardLoads(base, count - 1, 0);
      }
      SumAppend(rest, base + (if extra > 0 then 1 else 0));
      assert count * base == (count - 1) * base + base;
    }
  }

  /** Per-thread loads: split among the threads when there are fewer threads than
      cells, otherwise every load stays at its initial 0. */
  function Loads(numCells: int, numThreads: int): seq<int>
    requires 0 <= numCells && 1 <= numThreads
  {
    if numThreads < numCells then
      BackwardLoads(numCells / numThreads, numThreads, ExtraLoad(numCells, numThreads))
    else
      seq(numThreads, _ => 0)
  }

  /** With fewer threads than cells: thread `p` gets `num_cells / num_threads`,
      plus one for exactly the last `num_cells % num_threads` threads; the loads
      sum to `num_cells` and differ by at most one. */
  lemma LoadsBalanced(numCells: int, numThreads: int)
    requires 1 <= numThreads < numCells
    ensures |Loads(numCells, numThreads)| == numThreads
    ensures forall p :: 0 <= p < numThreads ==>
              Loads(numCells, numThreads)[p]
              == numCells / numThreads + (if p >= numThreads - numCells % numThreads then 1 else 0)
    ensures Sum(Loads(numCells, numThreads)) == numCells
    ensures forall p, q :: 0 <= p < numThreads && 0 <= q < numThreads ==>
              Loads(numCells, numThreads)[p] <= Loads(numCells, numThreads)[q] + 1
  {
    ExtraLoadIsRemainder(numCells, numThreads);
    SumBackwardLoads(numCells / numThreads, numThreads, numCells % numThreads);
  }

  /** What a thread is started on: `calculate_cell_avg` over linear indices
      `[lo, hi)`, or `idle_thread`, which computes nothing. */
  datatype Task = Compute(lo: int, hi: int) | Idle

  /** Linear index `k` is one the task computes. */
  predicate Covers(task: Task, k: int) {
    task.Compute? && task.lo <= k < task.hi
  }

  /** Number of cells the task computes. */
  function Width(task: Task): int {
    if task.Compute? then task.hi - task.lo else 0
  }

  /** The range loop: thread `p` gets `[range, range + load)` and `range`
      then advances by that load. */
  function RangesFrom(loads: seq<int>, start: int): (tasks: seq<Task>)
    ensures |tasks| == |loads|
    ensures forall p :: 0 <= p < |loads| ==>
              tasks[p] == Compute(start + Sum(loads[..p]), start + Sum(loads[..p]) + loads[p])
  {
    if |loads| == 0 then []
    else
      var rest := RangesFrom(loads[1..], start + loads[0]);
      assert forall p :: 1 <= p < |loads| ==> Sum(loads[..p]) == loads[0] + Sum(loads[1..][..p - 1]) by {
        forall p | 1 <= p < |loads|
          ensures Sum(loads[..p]) == loads[0] + Sum(loads[1..][..p - 1])
        {
          assert loads[..p][1..] == loads[1..][..p - 1];
        }
      }
      [Compute(start, start + loads[0])] + rest
  }

  /** Threads `i, ..., num_threads - 1` when there are at least as many threads as
      cells: thread `p` is given `[p, p + 1)` and computes only if `p < num_cells`. */
  function UnitTasks(i: int, numCells: int, numThreads: int): (tasks: seq<Task>)
    requires 0 <= i <= numThreads
    ensures |tasks| == numThreads - i
    ensures forall p :: 0 <= p < |tasks| ==>
              tasks[p] == if i + p < numCells then Compute(i + p, i + p + 1) else Idle
    decreases numThreads - i
  {
    if i == numThreads then []
    else [if i < numCells then Compute(i, i + 1) else Idle] + UnitTasks(i + 1, numCells, numThreads)
  }

  /** What each of the `num_threads` threads is started on in every round. */
  function Assign(numCells: int, numThreads: int): seq<Task>
    requires 0 <= numCells && 1 <= numThreads
  {
    if numThreads < numCells then RangesFrom(Loads(numCells, numThreads), 0)
    else UnitTasks(0, numCells, numThreads)
  }

  /** The tasks, read in thread order and skipping idle ones, compute one
      gap-free run of consecutive ranges from `from` to `to`. */
  predicate Chained(tasks: seq<Task>, from: int, to: int)
    decreases |tasks|
  {
    if |tasks| == 0 then from == to
    else match tasks[0]
      case Idle => Chained(tasks[1..], from, to)
      case Compute(lo, hi) => lo == from && lo <= hi && Chained(tasks[1..], hi, to)
  }

  /** Some task computes linear index `k`. */
  ghost predicate CoveredBySome(tasks: seq<Task>, k: int) {
    exists p :: 0 <= p < |tasks| && Covers(tasks[p], k)
  }

  /** Chained tasks tile `[from, to)`: every index there is computed by exactly one
      task, and no task computes an index outside it. */
  lemma {:induction false} ChainedTiles(tasks: seq<Task>, from: int, to: int)
    requires Chained(tasks, from, to)
    ensures from <= to
    ensures forall p :: 0 <= p < |tasks| && tasks[p].Compute? ==> from <= tasks[p].lo <= tasks[p].hi <= to
    ensures forall p, k :: 0 <= p < |tasks| && Covers(tasks[p], k) ==> from <= k < to
    ensures forall k :: from <= k < to ==> CoveredBySome(tasks, k)
    ensures forall p, q, k :: 0 <= p < q < |tasks| && Covers(tasks[p], k) ==> !Covers(tasks[q], k)
    decreases |tasks|
  {
    if |tasks| > 0 {
      var rest := tasks[1..];
      var next := if tasks[0].Compute? then tasks[0].hi else from;
      ChainedTiles(rest, next, to);
      assert forall p :: 1 <= p < |tasks| ==> tasks[p] == rest[p - 1];
      forall k | from <= k < to
        ensures CoveredBySome(tasks, k)
      {
        if !Covers(tasks[0], k) {
          assert next <= k;
          assert CoveredBySome(rest, k);
          var p' :| 0 <= p' < |rest| && Covers(rest[p'], k);
          assert Covers(tasks[p' + 1], k);
        }
      }
    }
  }

  lemma {:induction false} RangesChained(loads: seq<int>, start: int)
    requires forall p :: 0 <= p < |loads| ==> loads[p] >= 0
    ensures Chained(RangesFrom(loads, start), start, start + Sum(loads))
    decreases |loads|
  {
    if |loads| > 0 {
      RangesChained(loads[1..], start + loads[0]);
      assert RangesFrom(loads, start)[1..] == RangesFrom(loads[1..], start + loads[0]);
    }
  }

  lemma {:induction false} UnitTasksChained(i: int, numCells: int, numThreads: int)
    requires 0 <= i <= numThreads && 0 <= numCells <= numThreads
    ensures Chained(UnitTasks(i, numCells, numThreads), if i < numCells then i else numCells, numCells)
    decreases numThreads - i
  {
    if i < numThreads {
      UnitTasksChained(i + 1, numCells, numThreads);
      assert UnitTasks(i, numCells, numThreads)[1..] == UnitTasks(i + 1, numCells, numThreads);
    }
  }

  /** The assignment of either branch tiles `[0, num_cells)`: every cell is computed
      by exactly one thread and no thread computes anything outside it. */
  lemma AssignTiles(numCells: int, numThreads: int)
    requires 0 <= numCells && 1 <= numThreads
    ensures |Assign(numCells, numThreads)| == numThreads
    ensures Chained(Assign(numCells, numThreads), 0, numCells)
    ensures forall p :: 0 <= p < numThreads && Assign(numCells, numThreads)[p].Compute? ==>
              0 <= Assign(numCells, numThreads)[p].lo <= Assign(numCells, numThreads)[p].hi <= numCells
    ensures forall p, k :: 0 <= p < numThreads && Covers(Assign(numCells, numThreads)[p], k) ==> 0 <= k < numCells
    ensures forall k :: 0 <= k < numCells ==> CoveredBySome(Assign(numCells, numThreads), k)
    ensures forall p, q, k :: 0 <= p < q < numThreads && Covers(Assign(numCells, numThreads)[p], k) ==>
              !Covers(Assign(numCells, numThreads)[q], k)
  {
    if numThreads < numCells {
      LoadsBalanced(numCells, numThreads);
      RangesChained(Loads(numCells, numThreads), 0);
    } else {
      UnitTasksChained(0, numCells, numThreads);
    }
    ChainedTiles(Assign(numCells, numThreads), 0, numCells);
  }

  /** With fewer threads than cells, thread `p` computes
      `[sum of the loads of threads 0..p-1, that + load p)`. */
  lemma AssignRanges(numCells: int, numThreads: int)
    requires 1 <= numThreads < numCells
    ensures forall p :: 0 <= p < numThreads ==>
              Assign(numCells, numThreads)[p]
              == Compute(Sum(Loads(numCells, numThreads)[..p]),
                         Sum(Loads(numCells, numThreads)[..p]) + Loads(numCells, numThreads)[p])
  {
    LoadsBalanced(numCells, numThreads);
  }

  /** With at least as many threads as cells, thread `p` computes the single cell
      `p` when `p < num_cells` and idles otherwise. */
  lemma AssignUnits(numCells: int, numThreads: int)
    requires 0 <= numCells <= numThreads && 1 <= numThreads
    ensures forall p :: 0 <= p < numThreads ==>
              Assign(numCells, numThreads)[p] == if p < numCells then Compute(p, p + 1) else Idle
  {
  }

  /** Either way, the numbers of cells threads compute differ by at most one. */
  lemma AssignBalanced(numCells: int, numThreads: int)
    requires 0 <= numCells && 1 <= numThreads
    ensures forall p, q :: 0 <= p < numThreads && 0 <= q < numThreads ==>
              0 <= Width(Assign(numCells, numThreads)[p]) <= Width(Assign(numCells, numThreads)[q]) + 1
  {
    var tasks := Assign(numCells, numThreads);
    if numThreads < numCells {
      var loads := Loads(numCells, numThreads);
      var base := numCells / numThreads;
      LoadsBalanced(numCells, numThreads);
      AssignRanges(numCells, numThreads);
      QuotientNonNegative(numCells, numThreads);
      assert forall p :: 0 <= p < numThreads ==> base <= Width(tasks[p]) <= base + 1;
      WidthsWithinOne(tasks, base);
    } else {
      AssignUnits(numCells, numThreads);
      assert forall p :: 0 <= p < numThreads ==> 0 <= Width(tasks[p]) <= 1;
      WidthsWithinOne(tasks, 0);
    }
  }

  lemma QuotientNonNegative(a: int, m: int)
    requires 0 <= a && 0 < m
    ensures 0 <= a / m
  {
  }

  /** Widths that all lie in `[base, base + 1]` differ pairwise by at most one. */
  lemma WidthsWithinOne(tasks: seq<Task>, base: int)
    requires 0 <= base && forall p :: 0 <= p < |tasks| ==> base <= Width(tasks[p]) <= base + 1
    ensures forall p, q :: 0 <= p < |tasks| && 0 <= q < |tasks| ==>
              0 <= Width(tasks[p]) <= Width(tasks[q]) + 1
  {
  }
}

=== FILE: rounds.dfy ===
/** One round of each of the four programs: a sweep into a freshly allocated
    destination grid followed by the boundary copy. The destination's previous
    contents (`scratch`, uninitialised memory in the programs) never show: every
    round is proved equal to the reference round `Relax`, with the count of
    cells that moved by less than the precision. */
module Rounds {
  import opened Grids
  import opened Workers
  import opened RowSweeps
  import opened Boundary

  /** Once every interior cell is averaged, the boundary copy completes the reference round. */
  lemma FinishRound(src: Grid, avg: Grid, dim: int)
    requires IsGrid(src, dim) && IsGrid(avg, dim) && Averaged(src, avg, dim)
    ensures FillBoundary(src, avg, dim) == Relax(src, dim)
  {
    RelaxCells(src, dim);
    GridExt(FillBoundary(src, avg, dim), Relax(src, dim), dim);
  }

  /** `diffrelax_seq.c`: `calc_avg_and_diff` with its local counter starting at 0,
      then `fill_boundary_cells`. */
  function RoundSequential(src: Grid, scratch: Grid, dim: int, precision: real): (r: Sweep)
    requires IsGrid(src, dim) && IsGrid(scratch, dim) && dim >= 2
    ensures r.avg == Relax(src, dim)
    ensures r.numPrecise == PreciseCount(src, dim, precision)
  {
    var s := FusedSweep(src, Sweep(scratch, 0), dim, precision);
    WholeBlockAverages(src, Sweep(scratch, 0), dim, precision);
    FinishRound(src, s.avg, dim);
    Sweep(FillBoundary(src, s.avg, dim), s.numPrecise)
  }

  /** `diffrelax.c`: the averaging pass, `precise_num` reset to 0, the difference
      pass, then the boundary copy. */
  function RoundTwoPass(src: Grid, scratch: Grid, dim: int, precision: real): (r: Sweep)
    requires IsGrid(src, dim) && IsGrid(scratch, dim) && dim >= 2
    ensures r.avg == Relax(src, dim)
    ensures r.numPrecise == PreciseCount(src, dim, precision)
  {
    var s := TwoPassSweep(src, scratch, dim, precision);
    WholeBlockAverages(src, Sweep(scratch, 0), dim, precision);
    FinishRound(src, s.avg, dim);
    Sweep(FillBoundary(src, s.avg, dim), s.numPrecise)
  }

  /** `diffrelax_parl.c`: one `calc_cell_avg` thread per interior cell, each joined
      before the next starts, so the cells are updated in the fused row-major
      order; the shared counter keeps whatever value it had on entry. */
  function RoundPerCell(src: Grid, scratch: Grid, counter: int, dim: int, precision: real): (r: Sweep)
    requires IsGrid(src, dim) && IsGrid(scratch, dim) && dim >= 2
    ensures r.avg == Relax(src, dim)
    ensures r.numPrecise == counter + PreciseCount(src, dim, precision)
  {
    var s := FusedSweep(src, Sweep(scratch, counter), dim, precision);
    WholeBlockAverages(src, Sweep(scratch, counter), dim, precision);
    FinishRound(src, s.avg, dim);
    Sweep(FillBoundary(src, s.avg, dim), s.numPrecise)
  }

  /** `diffrelax_prl.c`: every thread started on what `Assign` gives it, all
      joined, then the boundary copy; the shared counter keeps its entry value. */
  function RoundPartitioned(src: Grid, scratch: Grid, counter: int, dim: int, numThreads: int, precision: real): (r: Sweep)
    requires IsGrid(src, dim) && IsGrid(scratch, dim) && dim >= 2 && 1 <= numThreads
    ensures r.avg == Relax(src, dim)
    ensures r.numPrecise == counter + PreciseCount(src, dim, precision)
  {
    var s := PartitionedSweep(src, Sweep(scratch, counter), dim, numThreads, precision);
    WholeBlockAverages(src, Sweep(scratch, counter), dim, precision);
    FinishRound(src, s.avg, dim);
    Sweep(FillBoundary(src, s.avg, dim), s.numPrecise)
  }

  /** The thread-count limit of `diffrelax_parl.c`: never more threads than
      interior cells. The result is the smaller of the two. */
  function ClampThreads(numThreads: int, numAvg: int): (r: int)
    ensures r <= numThreads && r <= numAvg
    ensures r == numThreads || r == numAvg
  {
    if numThreads > numAvg then numAvg else numThreads
  }
}

=== FILE: row_sweeps.dfy ===
/** The nested row/column loops of the sequential variants: the fused sweep of
    `calc_avg_and_diff` (also the order in which the per-cell-thread variant starts
    its threads), and the two-pass sweep of `diffrelax.c` that first writes all
    averages and then counts the differences. Each is proved to be the linear
    worker over the whole interior block, `RunRange(.., 0, (dim - 2)^2)`, so all
    variants write the same grid and the same count. */
module RowSweeps {
  import opened Grids
  import opened IndexMap
  import opened Workers

  /** Row `i` occupies the linear indices from `LinearIndex(i, 1)` up to
      `LinearIndex(i, dim - 1)`, which is where row `i + 1` starts; the row lies
      inside the block. */
  lemma RowBounds(i: int, dim: int)
    requires 1 <= i <= dim - 2
    ensures 0 <= LinearIndex(i, 1, dim - 2)
    ensures LinearIndex(i, dim - 1, dim - 2) <= NumCells(dim)
    ensures LinearIndex(i, dim - 1, dim - 2) == LinearIndex(i + 1, 1, dim - 2)
  {
    MulMono(dim - 3, i - 1, dim - 2);
    MulMono(i - 1, 0, dim - 2);
  }

  /** The row after the last interior row starts at the end of the block. */
  lemma LastRow(dim: int)
    requires dim >= 2
    ensures 0 <= NumCells(dim) == LinearIndex(dim - 1, 1, dim - 2)
  {
    MulMono(dim - 2, 0, dim - 2);
  }

  /** The inner loop of the fused sweep: cells `(i, j), ..., (i, dim - 2)`. */
  function SweepRow(src: Grid, st: Sweep, dim: int, i: int, j: int, precision: real): (r: Sweep)
    requires IsGrid(src, dim) && IsGrid(st.avg, dim) && 1 <= i <= dim - 2 && 1 <= j <= dim - 1
    ensures IsGrid(r.avg, dim)
    decreases dim - j
  {
    if j == dim - 1 then st
    else SweepRow(src, CellUpdate(src, st, dim, i, j, precision), dim, i, j + 1, precision)
  }

  /** The outer loop of the fused sweep: rows `i, ..., dim - 2`. */
  function SweepRows(src: Grid, st: Sweep, dim: int, i: int, precision: real): (r: Sweep)
    requires IsGrid(src, dim) && IsGrid(st.avg, dim) && 1 <= i <= dim - 1
    ensures IsGrid(r.avg, dim)
    decreases dim - i
  {
    if i == dim - 1 then st
    else SweepRows(src, SweepRow(src, st, dim, i, 1, precision), dim, i + 1, precision)
  }

  /** The rest of row `i`, from `(i, j)` on, is a valid linear range `[lo, hi)`
      one longer than the rest of the row from `(i, j + 1)`, and `lo` stands for `(i, j)`. */
  lemma RowSuffix(dim: int, i: int, j: int, lo: int, hi: int)
    requires 1 <= i <= dim - 2 && 1 <= j <= dim - 1
    requires lo == LinearIndex(i, j, dim - 2) && hi == LinearIndex(i, dim - 1, dim - 2)
    ensures ValidRange(dim, lo, hi)
    ensures j < dim - 1 ==> lo < hi && lo + 1 == LinearIndex(i, j + 1, dim - 2) && CellOf(lo, dim - 2) == (i, j)
    ensures j == dim - 1 ==> lo == hi
  {
    RowBounds(i, dim);
    if j < dim - 1 {
      CellOfIndex(i, j, dim - 2);
    }
  }

  /** One step of the inner loop of the fused sweep. */
  lemma SweepRowStep(src: Grid, st: Sweep, dim: int, i: int, j: int, j': int, precision: real)
    requires IsGrid(src, dim) && IsGrid(st.avg, dim) && 1 <= i <= dim - 2 && 1 <= j < dim - 1 && j' == j + 1
    ensures SweepRow(src, st, dim, i, j, precision)
            == SweepRow(src, CellUpdate(src, st, dim, i, j, precision), dim, i, j', precision)
  {
  }

  /** The rest of row `i`, from `(i, j)` on, is the linear range `[lo, hi)` from
      that cell to the end of the row. */
  lemma {:induction false} SweepRowIsRange(src: Grid, st: Sweep, dim: int, i: int, j: int, lo: int, hi: int, precision: real)
    requires IsGrid(src, dim) && IsGrid(st.avg, dim) && 1 <= i <= dim - 2 && 1 <= j <= dim - 1
    requires lo == LinearIndex(i, j, dim - 2) && hi == LinearIndex(i, dim - 1, dim - 2)
    ensures ValidRange(dim, lo, hi)
    ensures SweepRow(src, st, dim, i, j, precision) == RunRange(src, st, dim, lo, hi, precision)
    decreases dim - j
  {
    RowSuffix(dim, i, j, lo, hi);
    if j < dim - 1 {
      var j', lo' := j + 1, lo + 1;
      SweepRowStep(src, st, dim, i, j, j', precision);
      SweepRowIsRange(src, CellUpdate(src, st, dim, i, j, precision), dim, i, j', lo', hi, precision);
      RunRangeStep(src, st, dim, lo, lo', hi, i, j, precision);
    }
  }

  /** Rows `i, ..., dim - 2` are the linear range from the start `lo` of row `i` to the end. */
  lemma {:induction false} SweepRowsIsRange(src: Grid, st: Sweep, dim: int, i: int, lo: int, precision: real)
    requires IsGrid(src, dim) && IsGrid(st.avg, dim) && 1 <= i <= dim - 1 && lo == LinearIndex(i, 1, dim - 2)
    ensures ValidRange(dim, lo, NumCells(dim))
    ensures SweepRows(src, st, dim, i, precision) == RunRange(src, st, dim, lo, NumCells(dim), precision)
    decreases dim - i
  {
    LastRow(dim);
    if i < dim - 1 {
      RowBounds(i, dim);
      var mid := LinearIndex(i, dim - 1, dim - 2);
      SweepRowIsRange(src, st, dim, i, 1, lo, mid, precision);
      SweepRowsIsRange(src, SweepRow(src, st, dim, i, 1, precision), dim, i + 1, mid, precision);
      RunRangeSplit(src, st, dim, lo, mid, NumCells(dim), precision);
    }
  }

  /** The fused sweep visits every interior cell exactly once, in row-major
      order: it is the worker over the whole block `[0, (dim - 2)^2)`. */
  function FusedSweep(src: Grid, st: Sweep, dim: int, precision: real): (r: Sweep)
    requires IsGrid(src, dim) && IsGrid(st.avg, dim) && dim >= 2
    ensures r == RunRange(src, st, dim, 0, NumCells(dim), precision)
  {
    SweepRowsIsRange(src, st, dim, 1, 0, precision);
    SweepRows(src, st, dim, 1, precision)
  }

  /** Inner loop of the first pass of `diffrelax.c`: averages only, no counting. */
  function AvgRow(src: Grid, avg: Grid, dim: int, i: int, j: int): (r: Grid)
    requires IsGrid(src, dim) && IsGrid(avg, dim) && 1 <= i <= dim - 2 && 1 <= j <= dim - 1
    ensures IsGrid(r, dim)
    decreases dim - j
  {
    if j == dim - 1 then avg
    else AvgRow(src, SetCell(avg, dim, i, j, NeighbourAvg(src, dim, i, j)), dim, i, j + 1)
  }

  /** Outer loop of the first pass. */
  function AvgRows(src: Grid, avg: Grid, dim: int, i: int): (r: Grid)
    requires IsGrid(src, dim) && IsGrid(avg, dim) && 1 <= i <= dim - 1
    ensures IsGrid(r, dim)
    decreases dim - i
  {
    if i == dim - 1 then avg
    else AvgRows(src, AvgRow(src, avg, dim, i, 1), dim, i + 1)
  }

  /** Inner loop of the second pass: counts cells whose old value is within
      `precision` of the value the first pass wrote. */
  function DiffRow(src: Grid, avg: Grid, dim: int, i: int, j: int, count: int, precision: real): int
    requires IsGrid(src, dim) && IsGrid(avg, dim) && 1 <= i <= dim - 2 && 1 <= j <= dim - 1
    decreases dim - j
  {
    if j == dim - 1 then count
    else DiffRow(src, avg, dim, i, j + 1, if Abs(src[i][j] - avg[i][j]) < precision then count + 1 else count, precision)
  }

  /** Outer loop of the second pass. */
  function DiffRows(src: Grid, avg: Grid, dim: int, i: int, count: int, precision: real): int
    requires IsGrid(src, dim) && IsGrid(avg, dim) && 1 <= i <= dim - 1
    decreases dim - i
  {
    if i == dim - 1 then count
    else DiffRows(src, avg, dim, i + 1, DiffRow(src, avg, dim, i, 1, count, precision), precision)
  }

  /** One step of the inner loop of the first pass writes what a cell update writes. */
  lemma AvgRowStep(src: Grid, st: Sweep, dim: int, i: int, j: int, j': int, precision: real)
    requires IsGrid(src, dim) && IsGrid(st.avg, dim) && 1 <= i <= dim - 2 && 1 <= j < dim - 1 && j' == j + 1
    ensures AvgRow(src, st.avg, dim, i, j)
            == AvgRow(src, CellUpdate(src, st, dim, i, j, precision).avg, dim, i, j')
  {
  }

  /** The rest of row `i` in the first pass writes what the worker over `[lo, hi)` writes. */
  lemma {:induction false} AvgRowIsRange(src: Grid, st: Sweep, dim: int, i: int, j: int, lo: int, hi: int, precision: real)
    requires IsGrid(src, dim) && IsGrid(st.avg, dim) && 1 <= i <= dim - 2 && 1 <= j <= dim - 1
    requires lo == LinearIndex(i, j, dim - 2) && hi == LinearIndex(i, dim - 1, dim - 2)
    ensures ValidRange(dim, lo, hi)
    ensures AvgRow(src, st.avg, dim, i, j) == RunRange(src, st, dim, lo, hi, precision).avg
    decreases dim - j
  {
    RowSuffix(dim, i, j, lo, hi);
    if j < dim - 1 {
      var j', lo' := j + 1, lo + 1;
      AvgRowStep(src, st, dim, i, j, j', precision);
      AvgRowIsRange(src, CellUpdate(src, st, dim, i, j, precision), dim, i, j', lo', hi, precision);
      RunRangeStep(src, st, dim, lo, lo', hi, i, j, precision);
    }
  }

  /** The first pass over rows `i, ..., dim - 2` writes what the worker from the
      start `lo` of row `i` to the end writes. */
  lemma {:induction false} AvgRowsIsRange(src: Grid, st: Sweep, dim: int, i: int, lo: int, precision: real)
    requires IsGrid(src, dim) && IsGrid(st.avg, dim) && 1 <= i <= dim - 1 && lo == LinearIndex(i, 1, dim - 2)
    ensures ValidRange(dim, lo, NumCells(dim))
    ensures AvgRows(src, st.avg, dim, i) == RunRange(src, st, dim, lo, NumCells(dim), precision).avg
    decreases dim - i
  {
    LastRow(dim);
    if i < dim - 1 {
      RowBounds(i, dim);
      var mid := LinearIndex(i, dim - 1, dim - 2);
      AvgRowIsRange(src, st, dim, i, 1, lo, mid, precision);
      var st' := RunRange(src, st, dim, lo, mid, precision);
      AvgRowsIsRange(src, st', dim, i + 1, mid, precision);
      RunRangeSplit(src, st, dim, lo, mid, NumCells(dim), precision);
    }
  }

  /** Every interior cell of `avg` holds the neighbour average of `src`. */
  ghost predicate Averaged(src: Grid, avg: Grid, dim: int)
    requires IsGrid(src, dim) && IsGrid(avg, dim)
  {
    forall i, j :: IsInterior(dim, i, j) ==> avg[i][j] == NeighbourAvg(src, dim, i, j)
  }

  /** The whole-block worker averages every interior cell. */
  lemma WholeBlockAverages(src: Grid, st: Sweep, dim: int, precision: real)
    requires IsGrid(src, dim) && IsGrid(st.avg, dim) && dim >= 2
    ensures Averaged(src, RunRange(src, st, dim, 0, NumCells(dim), precision).avg, dim)
  {
    FullBlock(dim);
    RunRangeCells(src, st, dim, 0, NumCells(dim), precision);
  }

  /** Once every cell is averaged, the rest of row `i` in the second pass counts
      the precise cells of `[lo, hi)`. */
  lemma {:induction false} DiffRowIsCount(src: Grid, avg: Grid, dim: int, i: int, j: int, lo: int, hi: int, count: int, precision: real)
    requires IsGrid(src, dim) && IsGrid(avg, dim) && Averaged(src, avg, dim)
    requires 1 <= i <= dim - 2 && 1 <= j <= dim - 1
    requires lo == LinearIndex(i, j, dim - 2) && hi == LinearIndex(i, dim - 1, dim - 2)
    ensures ValidRange(dim, lo, hi)
    ensures DiffRow(src, avg, dim, i, j, count, precision) == count + CountPrecise(src, dim, precision, lo, hi)
    decreases dim - j
  {
    RowSuffix(dim, i, j, lo, hi);
    if j < dim - 1 {
      var j', lo' := j + 1, lo + 1;
      var next := if Abs(src[i][j] - avg[i][j]) < precision then count + 1 else count;
      DiffRowStep(src, avg, dim, i, j, j', count, next, precision);
      DiffRowIsCount(src, avg, dim, i, j', lo', hi, next, precision);
      CountPreciseStep(src, dim, precision, lo, lo', hi);
    }
  }

  /** One step of the inner loop of the second pass. */
  lemma DiffRowStep(src: Grid, avg: Grid, dim: int, i: int, j: int, j': int, count: int, next: int, precision: real)
    requires IsGrid(src, dim) && IsGrid(avg, dim) && 1 <= i <= dim - 2 && 1 <= j < dim - 1 && j' == j + 1
    requires next == if Abs(src[i][j] - avg[i][j]) < precision then count + 1 else count
    ensures DiffRow(src, avg, dim, i, j, count, precision) == DiffRow(src, avg, dim, i, j', next, precision)
  {
  }

  /** The second pass over rows `i, ..., dim - 2` counts the precise cells from
      the start `lo` of row `i` to the end. */
  lemma {:induction false} DiffRowsIsCount(src: Grid, avg: Grid, dim: int, i: int, lo: int, count: int, precision: real)
    requires IsGrid(src, dim) && IsGrid(avg, dim) && Averaged(src, avg, dim)
    requires 1 <= i <= dim - 1 && lo == LinearIndex(i, 1, dim - 2)
    ensures ValidRange(dim, lo, NumCells(dim))
    ensures DiffRows(src, avg, dim, i, count, precision) == count + CountPrecise(src, dim, precision, lo, NumCells(dim))
    decreases dim - i
  {
    LastRow(dim);
    if i < dim - 1 {
      RowBounds(i, dim);
      var mid := LinearIndex(i, dim - 1, dim - 2);
      DiffRowIsCount(src, avg, dim, i, 1, lo, mid, count, precision);
      DiffRowsIsCount(src, avg, dim, i + 1, mid, DiffRow(src, avg, dim, i, 1, count, precision), precision);
      CountPreciseSplit(src, dim, precision, lo, mid, NumCells(dim));
    }
  }

  /** The two passes of `diffrelax.c` together, the counter reset to 0 between
      them: the same grid and count as the fused sweep. */
  function TwoPassSweep(src: Grid, scratch: Grid, dim: int, precision: real): (r: Sweep)
    requires IsGrid(src, dim) && IsGrid(scratch, dim) && dim >= 2
    ensures r == FusedSweep(src, Sweep(scratch, 0), dim, precision)
  {
    var avg := AvgRows(src, scratch, dim, 1);
    AvgRowsIsRange(src, Sweep(scratch, 0), dim, 1, 0, precision);
    WholeBlockAverages(src, Sweep(scratch, 0), dim, precision);
    DiffRowsIsCount(src, avg, dim, 1, 0, 0, precision);
    Sweep(avg, DiffRows(src, avg, dim, 1, 0, precision))
  }
}

=== FILE: workers.dfy ===
/** The work of one thread of the thread-pool variant, `calculate_cell_avg`, as a
    pure function over a range of linear cell indices, and the threads of a round
    composed one after another. Because ranges are disjoint and the shared counter
    is only ever incremented, the order in which workers run does not matter
    (`WorkersCommute`), so thread-index order stands for any interleaving. */
module Workers {
  import opened Grids
  import opened IndexMap
  import opened Partition

  /** A sweep in progress: the destination grid and the shared count of cells
      that moved by less than the precision. */
  datatype Sweep = Sweep(avg: Grid, numPrecise: int)

  /** The work on one interior cell, common to every variant: write the neighbour
      average of the source into the destination, read it back, and count the cell
      if the old value is within `precision` of it. */
  function CellUpdate(src: Grid, st: Sweep, dim: int, i: int, j: int, precision: real): (r: Sweep)
    requires IsGrid(src, dim) && IsGrid(st.avg, dim) && IsInterior(dim, i, j)
    ensures IsGrid(r.avg, dim)
    ensures r.numPrecise == if Precise(src, dim, i, j, precision) then st.numPrecise + 1 else st.numPrecise
  {
    var avg := SetCell(st.avg, dim, i, j, NeighbourAvg(src, dim, i, j));
    var diff := Abs(src[i][j] - avg[i][j]);
    Sweep(avg, if diff < precision then st.numPrecise + 1 else st.numPrecise)
  }

  /** Only `(i, j)` of the destination changes, to the neighbour average of the
      source; the source is only read. */
  lemma CellUpdateCells(src: Grid, st: Sweep, dim: int, i: int, j: int, precision: real)
    requires IsGrid(src, dim) && IsGrid(st.avg, dim) && IsInterior(dim, i, j)
    ensures forall a, b :: 0 <= a < dim && 0 <= b < dim ==>
              CellUpdate(src, st, dim, i, j, precision).avg[a][b]
              == if a == i && b == j then NeighbourAvg(src, dim, i, j) else st.avg[a][b]
  {
  }

  /** `[lo, hi)` is a range of linear indices of the interior block. */
  predicate ValidRange(dim: int, lo: int, hi: int) {
    dim >= 2 && 0 <= lo <= hi <= NumCells(dim)
  }

  /** Interior cell `(i, j)` has its linear index in `[lo, hi)`. */
  predicate InBlock(dim: int, lo: int, hi: int, i: int, j: int) {
    IsInterior(dim, i, j) && lo <= LinearIndex(i, j, dim - 2) < hi
  }

  /** The cell with linear index `k` is precise. */
  predicate PreciseAt(src: Grid, dim: int, precision: real, k: int)
    requires IsGrid(src, dim) && dim >= 2 && 0 <= k < NumCells(dim)
  {
    var c := CellOf(k, dim - 2);
    Precise(src, dim, c.0, c.1, precision)
  }

  /** The number of linear indices in `[lo, hi)` whose cell is precise. */
  function CountPrecise(src: Grid, dim: int, precision: real, lo: int, hi: int): (n: int)
    requires IsGrid(src, dim) && ValidRange(dim, lo, hi)
    ensures 0 <= n <= hi - lo
    decreases hi - lo
  {
    if lo == hi then 0
    else (if PreciseAt(src, dim, precision, lo) then 1 else 0) + CountPrecise(src, dim, precision, lo + 1, hi)
  }

  /** Counting from `lo` is counting cell `lo` and then from `lo + 1`. */
  lemma CountPreciseStep(src: Grid, dim: int, precision: real, lo: int, lo': int, hi: int)
    requires IsGrid(src, dim) && ValidRange(dim, lo, hi) && lo < hi && lo' == lo + 1
    ensures CountPrecise(src, dim, precision, lo, hi)
            == (if PreciseAt(src, dim, precision, lo) then 1 else 0) + CountPrecise(src, dim, precision, lo', hi)
  {
  }

  /** The number of interior cells of `src` that move by less than `precision`
      in a round; it lies in `[0, (dim - 2)^2]`. */
  function PreciseCount(src: Grid, dim: int, precision: real): (n: int)
    requires IsGrid(src, dim) && dim >= 2
    ensures 0 <= n <= NumCells(dim)
  {
    CountPrecise(src, dim, precision, 0, NumCells(dim))
  }

  /** The count reaches the full width of its range exactly when every cell in it is precise. */
  lemma {:induction false} CountPreciseFull(src: Grid, dim: int, precision: real, lo: int, hi: int)
    requires IsGrid(src, dim) && ValidRange(dim, lo, hi)
    ensures CountPrecise(src, dim, precision, lo, hi) == hi - lo
            <==> forall k :: lo <= k < hi ==> PreciseAt(src, dim, precision, k)
    decreases hi - lo
  {
    if lo < hi {
      CountPreciseFull(src, dim, precision, lo + 1, hi);
    }
  }

  /** A round's count equals `(dim - 2)^2` exactly when every interior cell moved
      by less than `precision`: the loop's stopping test is convergence of all cells. */
  lemma PreciseCountFull(src: Grid, dim: int, precision: real)
    requires IsGrid(src, dim) && dim >= 2
    ensures PreciseCount(src, dim, precision) == NumCells(dim)
            <==> forall i, j :: IsInterior(dim, i, j) ==> Precise(src, dim, i, j, precision)
  {
    var n := NumCells(dim);
    CountPreciseFull(src, dim, precision, 0, n);
    if PreciseCount(src, dim, precision) == n {
      forall i, j | IsInterior(dim, i, j)
        ensures Precise(src, dim, i, j, precision)
      {
        CellOfIndex(i, j, dim - 2);
        assert PreciseAt(src, dim, precision, LinearIndex(i, j, dim - 2));
      }
    }
    if forall i, j :: IsInterior(dim, i, j) ==> Precise(src, dim, i, j, precision) {
      forall k | 0 <= k < n
        ensures PreciseAt(src, dim, precision, k)
      {
        var c := CellOf(k, dim - 2);
        assert IsInterior(dim, c.0, c.1);
      }
    }
  }

  /** The cells whose linear index lies in `[lo, hi)` and that are precise. */
  ghost function PreciseCells(src: Grid, dim: int, precision: real, lo: int, hi: int): set<(int, int)>
    requires IsGrid(src, dim) && ValidRange(dim, lo, hi)
  {
    set k | lo <= k < hi && PreciseAt(src, dim, precision, k) :: CellOf(k, dim - 2)
  }

  /** The precise cells of `[lo, hi)` are those of `[lo + 1, hi)`, plus the cell of
      `lo` when it is precise. */
  lemma PreciseCellsStep(src: Grid, dim: int, precision: real, lo: int, lo': int, hi: int)
    requires IsGrid(src, dim) && ValidRange(dim, lo, hi) && lo < hi && lo' == lo + 1
    ensures PreciseCells(src, dim, precision, lo, hi)
            == (if PreciseAt(src, dim, precision, lo) then {CellOf(lo, dim - 2)} else {})
               + PreciseCells(src, dim, precision, lo', hi)
  {
    var rest := PreciseCells(src, dim, precision, lo', hi);
    forall c | c in rest
      ensures c in PreciseCells(src, dim, precision, lo, hi)
    {
      var k :| lo' <= k < hi && PreciseAt(src, dim, precision, k) && CellOf(k, dim - 2) == c;
    }
  }

  /** Distinct linear indices name distinct cells, so counting precise indices
      counts precise cells. */
  lemma {:induction false} CountPreciseCells(src: Grid, dim: int, precision: real, lo: int, hi: int)
    requires IsGrid(src, dim) && ValidRange(dim, lo, hi)
    ensures CountPrecise(src, dim, precision, lo, hi) == |PreciseCells(src, dim, precision, lo, hi)|
    decreases hi - lo
  {
    if lo < hi {
      var lo' := lo + 1;
      CountPreciseCells(src, dim, precision, lo', hi);
      var c, rest := CellOf(lo, dim - 2), PreciseCells(src, dim, precision, lo', hi);
      assert c !in rest by {
        LaterCellsDiffer(lo, hi, dim - 2);
      }
      CountPreciseStep(src, dim, precision, lo, lo', hi);
      PreciseCellsStep(src, dim, precision, lo, lo', hi);
    }
  }

  /** The count of a round is the number of interior cells `(i, j)` that move by
      less than `precision`. */
  lemma PreciseCountCells(src: Grid, dim: int, precision: real)
    requires IsGrid(src, dim) && dim >= 2
    ensures PreciseCount(src, dim, precision)
            == |set i, j | 1 <= i <= dim - 2 && 1 <= j <= dim - 2 && Precise(src, dim, i, j, precision) :: (i, j)|
  {
    var n := NumCells(dim);
    MulMono(dim - 2, 0, dim - 2);
    CountPreciseCells(src, dim, precision, 0, n);
    var cells := set i, j | 1 <= i <= dim - 2 && 1 <= j <= dim - 2 && Precise(src, dim, i, j, precision) :: (i, j);
    forall c | c in cells
      ensures c in PreciseCells(src, dim, precision, 0, n)
    {
      CellOfIndex(c.0, c.1, dim - 2);
      assert PreciseAt(src, dim, precision, LinearIndex(c.0, c.1, dim - 2));
    }
    forall c | c in PreciseCells(src, dim, precision, 0, n)
      ensures c in cells
    {
      var k :| 0 <= k < n && PreciseAt(src, dim, precision, k) && CellOf(k, dim - 2) == c;
    }
    assert cells == PreciseCells(src, dim, precision, 0, n);
  }

  /** Dropping the first index `lo` from a range drops exactly its cell from the block. */
  lemma BlockStep(dim: int, lo: int, hi: int)
    requires ValidRange(dim, lo, hi) && lo < hi
    ensures IsInterior(dim, CellOf(lo, dim - 2).0, CellOf(lo, dim - 2).1)
    ensures !InBlock(dim, lo + 1, hi, CellOf(lo, dim - 2).0, CellOf(lo, dim - 2).1)
    ensures forall i, j :: InBlock(dim, lo, hi, i, j)
              <==> InBlock(dim, lo + 1, hi, i, j) || (i == CellOf(lo, dim - 2).0 && j == CellOf(lo, dim - 2).1)
  {
    var side := dim - 2;
    var c := CellOf(lo, side);
    IndexOfCell(lo, side);
    forall i, j | InBlock(dim, lo, hi, i, j) && !InBlock(dim, lo + 1, hi, i, j)
      ensures i == c.0 && j == c.1
    {
      CellOfIndex(i, j, side);
    }
  }

  /** `calculate_cell_avg`: the linear indices `lo, lo + 1, ..., hi - 1` in turn,
      each mapped to its cell and updated. The counter grows by the number of
      precise cells in the range; `RunRangeCells` says which cells are written. */
  function RunRange(src: Grid, st: Sweep, dim: int, lo: int, hi: int, precision: real): (r: Sweep)
    requires IsGrid(src, dim) && IsGrid(st.avg, dim) && ValidRange(dim, lo, hi)
    ensures IsGrid(r.avg, dim)
    ensures r.numPrecise == st.numPrecise + CountPrecise(src, dim, precision, lo, hi)
    decreases hi - lo
  {
    if lo == hi then st
    else
      var c := CellOf(lo, dim - 2);
      RunRange(src, CellUpdate(src, st, dim, c.0, c.1, precision), dim, lo + 1, hi, precision)
  }

  /** Exactly the cells of the range get their neighbour average; every other
      destination cell is left as it was. */
  lemma {:induction false} RunRangeCells(src: Grid, st: Sweep, dim: int, lo: int, hi: int, precision: real)
    requires IsGrid(src, dim) && IsGrid(st.avg, dim) && ValidRange(dim, lo, hi)
    ensures forall i, j :: 0 <= i < dim && 0 <= j < dim ==>
              RunRange(src, st, dim, lo, hi, precision).avg[i][j]
              == if InBlock(dim, lo, hi, i, j) then NeighbourAvg(src, dim, i, j) else st.avg[i][j]
    decreases hi - lo
  {
    if lo < hi {
      var c := CellOf(lo, dim - 2);
      BlockStep(dim, lo, hi);
      CellUpdateCells(src, st, dim, c.0, c.1, precision);
      RunRangeCells(src, CellUpdate(src, st, dim, c.0, c.1, precision), dim, lo + 1, hi, precision);
    }
  }

  /** A worker's first step: the cell `(i, j)` of index `lo` is updated, then the
      rest of the range is run. */
  lemma RunRangeStep(src: Grid, st: Sweep, dim: int, lo: int, lo': int, hi: int, i: int, j: int, precision: real)
    requires IsGrid(src, dim) && IsGrid(st.avg, dim) && ValidRange(dim, lo, hi) && lo < hi && lo' == lo + 1
    requires CellOf(lo, dim - 2) == (i, j)
    ensures IsInterior(dim, i, j)
    ensures RunRange(src, st, dim, lo, hi, precision)
            == RunRange(src, CellUpdate(src, st, dim, i, j, precision), dim, lo', hi, precision)
  {
  }

  /** The whole range `[0, (dim - 2)^2)` is exactly the interior. */
  lemma FullBlock(dim: int)
    requires dim >= 2
    ensures forall i, j :: InBlock(dim, 0, NumCells(dim), i, j) <==> IsInterior(dim, i, j)
  {
    forall i, j | IsInterior(dim, i, j)
      ensures InBlock(dim, 0, NumCells(dim), i, j)
    {
      CellOfIndex(i, j, dim - 2);
    }
  }

  /** Counting in `[lo, mid)` and then `[mid, hi)` is counting in `[lo, hi)`. */
  lemma {:induction false} CountPreciseSplit(src: Grid, dim: int, precision: real, lo: int, mid: int, hi: int)
    requires IsGrid(src, dim) && ValidRange(dim, lo, mid) && ValidRange(dim, mid, hi)
    ensures CountPrecise(src, dim, precision, lo, hi)
            == CountPrecise(src, dim, precision, lo, mid) + CountPrecise(src, dim, precision, mid, hi)
    decreases mid - lo
  {
    if lo < mid {
      CountPreciseSplit(src, dim, precision, lo + 1, mid, hi);
    }
  }

  /** Running `[lo, mid)` and then `[mid, hi)` is running `[lo, hi)`. */
  lemma RunRangeSplit(src: Grid, st: Sweep, dim: int, lo: int, mid: int, hi: int, precision: real)
    requires IsGrid(src, dim) && IsGrid(st.avg, dim) && ValidRange(dim, lo, mid) && ValidRange(dim, mid, hi)
    ensures RunRange(src, RunRange(src, st, dim, lo, mid, precision), dim, mid, hi, precision)
            == RunRange(src, st, dim, lo, hi, precision)
  {
    var x := RunRange(src, RunRange(src, st, dim, lo, mid, precision), dim, mid, hi, precision);
    var y := RunRange(src, st, dim, lo, hi, precision);
    CountPreciseSplit(src, dim, precision, lo, mid, hi);
    RunRangeCells(src, st, dim, lo, mid, precision);
    RunRangeCells(src, RunRange(src, st, dim, lo, mid, precision), dim, mid, hi, precision);
    RunRangeCells(src, st, dim, lo, hi, precision);
    GridExt(x.avg, y.avg, dim);
  }

  /** Two workers over disjoint ranges give the same grid and count in either
      order: the writes never overlap and the counter increments commute. */
  lemma WorkersCommute(src: Grid, st: Sweep, dim: int, a: int, b: int, c: int, d: int, precision: real)
    requires IsGrid(src, dim) && IsGrid(st.avg, dim) && ValidRange(dim, a, b) && ValidRange(dim, c, d)
    requires b <= c || d <= a
    ensures RunRange(src, RunRange(src, st, dim, a, b, precision), dim, c, d, precision)
            == RunRange(src, RunRange(src, st, dim, c, d, precision), dim, a, b, precision)
  {
    var x := RunRange(src, RunRange(src, st, dim, a, b, precision), dim, c, d, precision);
    var y := RunRange(src, RunRange(src, st, dim, c, d, precision), dim, a, b, precision);
    RunRangeCells(src, st, dim, a, b, precision);
    RunRangeCells(src, RunRange(src, st, dim, a, b, precision), dim, c, d, precision);
    RunRangeCells(src, st, dim, c, d, precision);
    RunRangeCells(src, RunRange(src, st, dim, c, d, precision), dim, a, b, precision);
    GridExt(x.avg, y.avg, dim);
  }

  /** A task's range lies within the interior block. */
  predicate TaskInBounds(task: Task, dim: int) {
    task.Compute? ==> ValidRange(dim, task.lo, task.hi)
  }

  /** One thread: `calculate_cell_avg` over its range, or `idle_thread`, which does nothing. */
  function RunTask(src: Grid, st: Sweep, dim: int, task: Task, precision: real): (r: Sweep)
    requires IsGrid(src, dim) && IsGrid(st.avg, dim) && dim >= 2 && TaskInBounds(task, dim)
    ensures IsGrid(r.avg, dim)
  {
    match task
    case Idle => st
    case Compute(lo, hi) => RunRange(src, st, dim, lo, hi, precision)
  }

  /** The threads of a round, run one after another in thread order. */
  function RunTasks(src: Grid, st: Sweep, dim: int, tasks: seq<Task>, precision: real): (r: Sweep)
    requires IsGrid(src, dim) && IsGrid(st.avg, dim) && dim >= 2
    requires forall p :: 0 <= p < |tasks| ==> TaskInBounds(tasks[p], dim)
    ensures IsGrid(r.avg, dim)
    decreases |tasks|
  {
    if |tasks| == 0 then st
    else RunTasks(src, RunTask(src, st, dim, tasks[0], precision), dim, tasks[1..], precision)
  }

  /** Threads whose ranges chain from `from` to `to` do together what one worker
      over `[from, to)` does. */
  lemma {:induction false} RunTasksChained(src: Grid, st: Sweep, dim: int, tasks: seq<Task>, from: int, to: int, precision: real)
    requires IsGrid(src, dim) && IsGrid(st.avg, dim) && ValidRange(dim, from, to)
    requires Chained(tasks, from, to)
    requires forall p :: 0 <= p < |tasks| ==> TaskInBounds(tasks[p], dim)
    ensures RunTasks(src, st, dim, tasks, precision) == RunRange(src, st, dim, from, to, precision)
    decreases |tasks|
  {
    if |tasks| > 0 {
      ChainedTiles(tasks, from, to);
      assert forall p :: 0 <= p < |tasks[1..]| ==> TaskInBounds(tasks[1..][p], dim) by {
        assert forall p :: 0 <= p < |tasks[1..]| ==> tasks[1..][p] == tasks[p + 1];
      }
      match tasks[0]
      case Idle =>
        RunTasksChained(src, st, dim, tasks[1..], from, to, precision);
      case Compute(lo, hi) =>
        ChainedTiles(tasks[1..], hi, to);
        RunTasksChained(src, RunRange(src, st, dim, lo, hi, precision), dim, tasks[1..], hi, to, precision);
        RunRangeSplit(src, st, dim, lo, hi, to, precision);
    }
  }

  /** All threads of one round of the thread-pool variant, each started on what
      `Assign` gives it. */
  function PartitionedSweep(src: Grid, st: Sweep, dim: int, numThreads: int, precision: real): (r: Sweep)
    requires IsGrid(src, dim) && IsGrid(st.avg, dim) && dim >= 2 && 1 <= numThreads
    ensures r == RunRange(src, st, dim, 0, NumCells(dim), precision)
  {
    var tasks := Assign(NumCells(dim), numThreads);
    AssignTiles(NumCells(dim), numThreads);
    RunTasksChained(src, st, dim, tasks, 0, NumCells(dim), precision);
    RunTasks(src, st, dim, tasks, precision)
  }
}
